=== FILE: README.md ===
# Redacting log formatter: a Dafny model

This project models the log-field redactor of `0x00-personal_data/filtered_logger.py`. It also models the two pure pieces around it.

- `filter_datum(fields, redaction, message, separator)` walks `fields` in order. For each field name `f` it runs `re.sub(f'{f}=.*?{separator}', f'{f}={redaction}{separator}', message, count=1)`. At most one `f=value<sep>` span per field is rewritten to `f=<redaction><sep>`.
- `RedactingFormatter.format` rewrites a log record's message with `filter_datum(self._fields, "***", msg, ";")`. It then hands the record to the standard formatter.
- `main` renders each database row as `''.join(f'{k}={v};' for k, v in zip(fields, row))` and logs the result.

Strings are `seq<char>`. Everything is a pure function or a lemma.

Modules:

- `Redactor` (`redactor.dfy`) gives the regular-expression semantics in two forms.
  - Declarative form: a `Candidate` is a start index where `f=` occurs, together with a value length at which the separator follows and no newline comes before it (`.` does not match a newline). The engine's pick, `Chosen`, is the candidate with the least start and, at that start, the least value length. This reflects leftmost matching and the lazy `.*?`.
  - Operational form: `ValueEnd` runs the lazy quantifier, `Scan` tries start positions from left to right, `Pass` performs the single substitution, and `FilterDatum` folds `Pass` over the field list.
  - The contracts prove that the two forms agree.
- `Formatter` (`formatter.dfy`) holds the PII field list, the formatter constants and the message rewrite done by `format`. `RedactingFormatter` takes its field list from its constructor, so `FormatRecord` is stated for any configured list. `PiiFormatter` is the one the logger builds.
- `Rows` (`rows.dfy`) holds the row renderer. `zip` stops at the shorter of the column list and the row, so shorter and longer rows are both modelled. It proves what one field pass does to a rendered line: the pass masks the value of the first column whose name ends with the field name, because the pattern has no key boundary. The module ends with the composition: format a row rendered with the program's eight columns, and exactly the five PII values become `***`.
- `Scenarios` (`scenarios.dfy`) pins down concrete messages.

## Model

| member | source | states |
|---|---|---|
| Redactor.ValueEnd | 0x00-personal_data/filtered_logger.py:21 | `.*?{separator}` stops at the first separator after `f=`. It gives no match when a newline comes first or no separator follows. The result is the least length for which the separator follows with no newline consumed. |
| Redactor.Scan | 0x00-personal_data/filtered_logger.py:21 | The search finds a match exactly when some candidate exists. The match it reports is the leftmost candidate start, with the shortest valid value at that start. |
| Redactor.Pass | 0x00-personal_data/filtered_logger.py:21-22 | One `re.sub(..., count=1)`. With no candidate, the message is unchanged. With one, the result is `pre + f + "=" + redaction + sep + post`. Here `pre` is the text before the chosen match and `post` is the text after its separator. A chosen match exists whenever a candidate does. |
| Redactor.FilterDatum | 0x00-personal_data/filtered_logger.py:13-23 | The loop over `fields`. An empty field list, an empty message, or a message in which no listed field has a candidate comes back unchanged. |
| Redactor.FilterDatumAppend | 0x00-personal_data/filtered_logger.py:20-23 | The passes are sequential. Redacting with `a + b` equals redacting with `a` and then redacting that output with `b`. |
| Redactor.PassSkip | 0x00-personal_data/filtered_logger.py:21 | A prefix in which no match starts is copied unchanged. The pass acts on the rest as it would on the rest alone. |
| Formatter.FormatRecord | 0x00-personal_data/filtered_logger.py:58-62 | `format` sets the message to `filter_datum(fields, "***", msg, ";")` for the formatter's own field list and leaves the logger name and level alone. With no fields, or an empty message, the record is unchanged. |
| Formatter.PiiFormatter | 0x00-personal_data/filtered_logger.py:10 | The formatter built from `PII_FIELDS` has field names without pattern metacharacters, so its redaction is a literal substitution. |
| Rows.Zip | 0x00-personal_data/filtered_logger.py:74 | `zip(fields, row)` yields `min(len(fields), len(row))` pairs, the i-th being `(fields[i], row[i])`. |
| Rows.RenderRow | 0x00-personal_data/filtered_logger.py:74 | The line of a row is empty when either the column list or the row is empty. Otherwise it begins with the first column's `k=v;` segment. |
| Rows.JoinAppend | 0x00-personal_data/filtered_logger.py:74 | The join is segment-wise: the line for `a + b` is the line for `a` followed by the line for `b`. |
| Rows.RenderRowAppend | 0x00-personal_data/filtered_logger.py:74 | For equal-length columns and values, one more column with its value appends exactly its `k=v;` segment after the earlier ones. Together with the empty case, this fixes the content and order of every segment. |
| Rows.RenderRowTruncates | 0x00-personal_data/filtered_logger.py:74 | The line of a row equals the line of the first `min(len(fields), len(row))` columns and values: surplus columns or values add nothing, as `zip` does. |
| Rows.RenderedSegmentCount | 0x00-personal_data/filtered_logger.py:74 | When names and values hold no `;`, the rendered line has exactly one `;` per emitted pair. That is `min(len(fields), len(row))` segments. |
| Rows.SuffixChosen | 0x00-personal_data/filtered_logger.py:21 | In a rendered line whose first column name ends with `f`, the chosen match starts where that `f` starts and its value is the whole first value. This holds even when the name is longer than `f` (no key boundary). |
| Rows.SegmentSkipped | 0x00-personal_data/filtered_logger.py:21 | When `f` does not end the first column name, no match starts inside the first `k=v;` segment. |
| Rows.PassJoin | 0x00-personal_data/filtered_logger.py:21-22 | One field pass over a rendered line of plain values replaces the value of the first pair whose name ends with `f` and nothing else. |
| Rows.FilterJoin | 0x00-personal_data/filtered_logger.py:20-22 | `filter_datum` over a rendered line masks, field by field, the first pair each field name ends. |
| Rows.PassJoinTail | 0x00-personal_data/filtered_logger.py:21-22 | A field pass over plain pairs followed by arbitrary text, when some key ends with `f`. It masks the value of the first such pair and keeps the text after the pairs unchanged, even if that text holds `;`, `=` or newlines. |
| Rows.FilterJoinTail | 0x00-personal_data/filtered_logger.py:20-22 | `filter_datum` over plain pairs followed by arbitrary text, when every field ends some key. The result is the `MaskEach` rendering of the pairs followed by the unchanged text. |
| Rows.PassAfterPrefix | 0x00-personal_data/filtered_logger.py:21-22 | Take plain pairs none of whose keys ends with `f`, then a segment whose key does, then any text. One pass copies the pairs and masks that segment's value, even if the value holds `=`; the text after it is kept. |
| Rows.MaskInOrder | 0x00-personal_data/filtered_logger.py:20-22 | Run `filter_datum` with the column names as fields, in column order. The line is plain pairs whose keys none of those names ends, then those columns, then any text. It masks every value of those columns and keeps the rest, provided no later column name ends an earlier one and the values hold no `;` or newline. |
| Rows.PiiSuffixes | 0x00-personal_data/filtered_logger.py:70-71 | No PII field name is a proper suffix of any of the eight column names. So on these columns a pass hits only the column of the same name. |
| Rows.RedactedRowLine | 0x00-personal_data/filtered_logger.py:70-75 | Take a row whose `name`, `email`, `phone`, `ssn` and `password` values hold no `;` or newline; they may hold `=`. The `ip`, `last_login` and `user_agent` values may hold anything. Render the row with the eight column names and format it with the PII formatter. The five PII values become `***`. Every other value, every column name and the record's other attributes are kept. |
| Scenarios.OnlyFirstOccurrence | 0x00-personal_data/filtered_logger.py:21-22 | `name=John;name=Doe;` redacted with `["name"]` gives `name=***;name=Doe;`. |
| Scenarios.NoKeyBoundary | 0x00-personal_data/filtered_logger.py:21 | `username=bob;` redacted with `["name"]` gives `username=***;`. |
| Scenarios.TwoFields | 0x00-personal_data/filtered_logger.py:20-22 | `email=a@b.com;phone=555;extra=x;` redacted with `["email", "phone"]` gives `email=***;phone=***;extra=x;`. |
| Scenarios.NewlineStopsValue | 0x00-personal_data/filtered_logger.py:21 | In `name=a\nb;name=c;` the first `name=` cannot match across the newline, so the second value is the one masked. |
| Scenarios.SingleField | 0x00-personal_data/filtered_logger.py:20-23 | With one field, `filter_datum` is exactly that field's single substitution. |
| Scenarios.EqualsInValue | 0x00-personal_data/filtered_logger.py:20-22 | `name=a=b;email=c;` redacted with `["name", "email"]` gives `name=***;email=***;`. A `=` inside a value does not disturb the mask. |
| Scenarios.TrailingValueKept | 0x00-personal_data/filtered_logger.py:20-22 | `name=Bob;user_agent=Moz (X11; Linux);` redacted with `["name"]` gives `name=***;user_agent=Moz (X11; Linux);`. A `;` inside a later value does not disturb the mask. |
| Scenarios.FormatterMasksPii | 0x00-personal_data/filtered_logger.py:58-62 | The PII formatter turns the message `name=Bob;email=bob@x.com;` into `name=***;email=***;`. |
| Scenarios.RenderTwoColumns | 0x00-personal_data/filtered_logger.py:74 | Columns `name`, `email` with row `Alice`, `a@x.com` render as `name=Alice;email=a@x.com;`. |
| Scenarios.RenderShortRow | 0x00-personal_data/filtered_logger.py:74 | A one-value row against the eight columns renders only `name=Bob;`. |

## Left out

- `get_db` (environment variables, MySQL connection) and the cursor loop with `execute` and `close` in `main`: these are I/O and a foreign library. Only the join expression of `main` is modelled.
- `get_logger` (logger and stream-handler registration): this is global mutable state and I/O. `Formatter.PiiFormatter` stands for the formatter it installs.
- The standard `logging.Formatter.format` call at the end of `format`: the `FORMAT` prefix needs the wall-clock `asctime`. `FormatRecord` returns the record as that call receives it, and `%`-interpolation of record arguments is not modelled.
- The conversion of database values to text (`str(v)` inside the f-string): rows are modelled as sequences of already-converted strings.
- General regular-expression semantics: field names and the separator go into the pattern without escaping, and the replacement is a template.
- Formatter.FormatRecord: messages are modelled as strings only. In Python a record's `msg` can be any object, and the `re.sub` call at line 21, reached through `filter_datum` from line 60, raises `TypeError` on a non-string (for example `logger.info(42)`); that error path is not modelled. Line 60 also overwrites `record.msg` in place, so later handlers and later `format` calls see the redacted text. The model returns a new record instead.
- Redactor.Pass: requires field name and separator free of Python `re` metacharacters (`.^$*+?{}[]\|()`) and a redaction without a backslash, because outside that domain the code does not do a literal substitution and the model does not claim it does.
- Redactor.FilterDatum: carries the same requirement for every field name, for the same reason.
- Rows.RedactedRowLine: stated only for PII values without `;` or newline. A `;` in a PII value ends that column's match early, so only part of the value is masked. A newline stops the pattern's `.`, so that column's key cannot match and the pass moves on to a later `f=`. The trailing three columns are unrestricted.
- Rows.RenderedSegmentCount: stated only for names and values without `;`, because a `;` inside a value adds to the count.

=== FILE: formatter.dfy ===
/**
 `RedactingFormatter`: a logging formatter configured with a field list whose
 `format` rewrites the record's message through `filter_datum` with the
 fixed token `***` and separator `;` before the standard formatting runs.
 The standard formatting itself (the `FORMAT` prefix with logger name, level
 and wall-clock time) is outside this model; `FormatRecord` returns the
 record as the standard formatter receives it.
 */
module Formatter {
  import opened Redactor

  /** The fields the logger masks. */
  const PiiFields: seq<string> := ["name", "email", "phone", "ssn", "password"]

  const Redaction: string := "***"
  const Separator: string := ";"

  datatype RedactingFormatter = RedactingFormatter(fields: seq<string>)

  /** The parts of a log record the formatter reads or rewrites. */
  datatype LogRecord = LogRecord(name: string, levelName: string, msg: string)

  /** No configured field name holds a pattern metacharacter. */
  predicate Configured(formatter: RedactingFormatter) {
    forall f :: f in formatter.fields ==> Literal(f)
  }

  lemma ConfiguredWellFormed(formatter: RedactingFormatter)
    requires Configured(formatter)
    ensures WellFormed(formatter.fields, Redaction, Separator)
  {
    assert ';' !in RegexSpecial;
  }

  /**
   `format`: the message is replaced by its redaction with the formatter's
   fields, `***` and `;`; the logger name and level are left alone.
   */
  function FormatRecord(formatter: RedactingFormatter, record: LogRecord): (r: LogRecord)
    requires Configured(formatter)
    ensures WellFormed(formatter.fields, Redaction, Separator)
    ensures r.name == record.name && r.levelName == record.levelName
    ensures r.msg == FilterDatum(formatter.fields, Redaction, record.msg, Separator)
    ensures |formatter.fields| == 0 || |record.msg| == 0 ==> r == record
  {
    ConfiguredWellFormed(formatter);
    record.(msg := FilterDatum(formatter.fields, Redaction, record.msg, Separator))
  }

  /** The logger's own formatter, built from the PII field list. */
  function PiiFormatter(): (formatter: RedactingFormatter)
    ensures Configured(formatter)
    ensures formatter.fields == PiiFields
  {
    assert forall f :: f in PiiFields ==> Literal(f);
    RedactingFormatter(PiiFields)
  }
}

=== FILE: redactor.dfy ===
/**
 The log-field redactor `filter_datum`: for every configured field name `f`,
 in order, Python's `re.sub(f'{f}=.*?{separator}', f'{f}={redaction}{separator}',
 message, count=1)` is applied to the message.

 The regular-expression semantics are given twice. Declaratively, a
 `Candidate` is a start index `i` where `f=` occurs together with a value
 length `k` at which the separator follows and no newline precedes it (`.`
 does not match a newline); the engine's pick is the `Chosen` candidate, the
 one with the least start and, at that start, the least value length
 (leftmost match, lazy `.*?`). Operationally, `ValueEnd` runs the lazy
 quantifier, `Scan` tries the start positions from left to right, `Pass`
 performs the single substitution and `FilterDatum` folds `Pass` over the
 field list. The contracts connect the two.
 */
module Redactor {

  datatype Option<T> = None | Some(value: T)

  /** A match found by `Scan`: where `f=` starts and how long the value is. */
  datatype Span = Span(start: nat, valueLen: nat)

  /** Characters with a special meaning in a Python `re` pattern or template. */
  const RegexSpecial: set<char> :=
    {'.', '^', '$', '*', '+', '?', '{', '}', '[', ']', '\\', '|', '(', ')'}

  /** A string that stands for itself when interpolated into a pattern. */
  predicate Literal(p: string) {
    forall c :: c in p ==> c !in RegexSpecial
  }

  /**
   The inputs on which `filter_datum` is a literal text substitution: field
   names and separator are interpolated into the pattern unescaped, and the
   replacement is a template in which a backslash starts an escape.
   */
  predicate WellFormed(fields: seq<string>, redaction: string, separator: string) {
    && (forall f :: f in fields ==> Literal(f))
    && Literal(separator)
    && '\\' !in redaction
  }

  /** The lazy `.*?` may stop after `k` characters of `t`: the separator follows and no newline was consumed. */
  predicate Terminates(t: string, sep: string, k: nat) {
    && k + |sep| <= |t|
    && t[k..k + |sep|] == sep
    && forall j :: 0 <= j < k ==> t[j] != '\n'
  }

  /** The pattern `f=.*?sep` matches `s` at index `i` with a value of length `k`. */
  predicate Candidate(s: string, f: string, sep: string, i: nat, k: nat) {
    && i + |f| + 1 <= |s|
    && s[i..i + |f| + 1] == f + "="
    && Terminates(s[i + |f| + 1..], sep, k)
  }

  ghost predicate NoCandidate(s: string, f: string, sep: string) {
    forall i: nat, k: nat :: !Candidate(s, f, sep, i, k)
  }

  /** The match the backtracking engine reports: leftmost start, then shortest value. */
  ghost predicate Chosen(s: string, f: string, sep: string, i: nat, k: nat) {
    && Candidate(s, f, sep, i, k)
    && forall i': nat, k': nat :: Candidate(s, f, sep, i', k') ==> i < i' || (i == i' && k <= k')
  }

  /** The text that replaces the matched span. */
  function Replacement(f: string, redaction: string, sep: string): string {
    f + "=" + redaction + sep
  }

  lemma TerminatesStep(t: string, sep: string, k: nat)
    requires |t| > 0
    ensures Terminates(t, sep, k + 1) <==> t[0] != '\n' && Terminates(t[1..], sep, k)
  {
    if k + 1 + |sep| <= |t| {
      assert t[1..][k..] == t[k + 1..];
      assert t[1..][k..k + |sep|] == t[k + 1..][..|sep|] == t[k + 1..k + 1 + |sep|];
    }
    if t[0] != '\n' && Terminates(t[1..], sep, k) {
      forall j | 0 <= j < k + 1
        ensures t[j] != '\n'
      {
        if j > 0 {
          assert t[j] == t[1..][j - 1];
        }
      }
    }
  }

  /**
   The lazy quantifier `.*?` followed by the separator: the least `k` at which
   the separator follows, provided no newline comes first.
   */
  function ValueEnd(t: string, sep: string): (r: Option<nat>)
    ensures r.None? ==> forall k: nat :: !Terminates(t, sep, k)
    ensures r.Some? ==> Terminates(t, sep, r.value)
    ensures r.Some? ==> forall k: nat :: Terminates(t, sep, k) ==> r.value <= k
    decreases |t|
  {
    if sep <= t then Some(0)
    else if |t| == 0 || t[0] == '\n' then None
    else
      var rest := ValueEnd(t[1..], sep);
      assert forall k: nat :: 0 < k ==> (Terminates(t, sep, k) <==> Terminates(t[1..], sep, k - 1)) by {
        forall k: nat | 0 < k
          ensures Terminates(t, sep, k) <==> Terminates(t[1..], sep, k - 1)
        {
          TerminatesStep(t, sep, k - 1);
        }
      }
      assert !Terminates(t, sep, 0);
      match rest
      case None => None
      case Some(k) => Some(k + 1)
  }

  /** Candidates of `a + b` from index `|a|` on are the candidates of `b`, shifted. */
  lemma CandidateSuffix(a: string, b: string, f: string, sep: string)
    ensures forall i: nat, k: nat :: |a| <= i ==>
              (Candidate(a + b, f, sep, i, k) <==> Candidate(b, f, sep, i - |a|, k))
  {
    forall i: nat, k: nat | |a| <= i
      ensures Candidate(a + b, f, sep, i, k) <==> Candidate(b, f, sep, i - |a|, k)
    {
      var j := i - |a|;
      if j + |f| + 1 <= |b| {
        assert (a + b)[i..i + |f| + 1] == b[j..j + |f| + 1];
        assert (a + b)[i + |f| + 1..] == b[j + |f| + 1..];
      }
    }
  }

  /** `re.search` for `f=.*?sep`: the leftmost start, the lazy value length there. */
  function Scan(s: string, f: string, sep: string): (m: Option<Span>)
    ensures m.None? ==> NoCandidate(s, f, sep)
    ensures m.Some? ==> Chosen(s, f, sep, m.value.start, m.value.valueLen)
    decreases |s|
  {
    var here := if f + "=" <= s then ValueEnd(s[|f| + 1..], sep) else None;
    if here.Some? then
      assert s[0..|f| + 1] == f + "=";
      Some(Span(0, here.value))
    else if |s| == 0 then None
    else
      assert forall k: nat :: !Candidate(s, f, sep, 0, k);
      assert s == [s[0]] + s[1..];
      CandidateSuffix([s[0]], s[1..], f, sep);
      match Scan(s[1..], f, sep)
      case None => None
      case Some(m) => Some(Span(m.start + 1, m.valueLen))
  }

  /**
   One field's `re.sub(..., count=1)`: the chosen match, if any, is replaced by
   `f=redaction sep`; the text before and after it is kept.
   */
  function Pass(s: string, f: string, redaction: string, sep: string): (r: string)
    requires Literal(f) && Literal(sep) && '\\' !in redaction
    ensures NoCandidate(s, f, sep) ==> r == s
    ensures !NoCandidate(s, f, sep) ==> exists i: nat, k: nat :: Chosen(s, f, sep, i, k)
    ensures forall i: nat, k: nat :: Chosen(s, f, sep, i, k) ==>
              r == s[..i] + Replacement(f, redaction, sep) + s[i + |f| + 1 + k + |sep|..]
  {
    match Scan(s, f, sep)
    case None => s
    case Some(m) =>
      assert Chosen(s, f, sep, m.start, m.valueLen);
      s[..m.start] + Replacement(f, redaction, sep) + s[m.start + |f| + 1 + m.valueLen + |sep|..]
  }

  /** `filter_datum`: the passes for `fields`, left to right, each on the previous output. */
  function FilterDatum(fields: seq<string>, redaction: string, message: string, separator: string): (r: string)
    requires WellFormed(fields, redaction, separator)
    ensures |fields| == 0 ==> r == message
    ensures (forall j, i: nat, k: nat :: 0 <= j < |fields| ==> !Candidate(message, fields[j], separator, i, k)) ==> r == message
    ensures |message| == 0 ==> r == message
    decreases |fields|
  {
    if |fields| == 0 then message
    else FilterDatum(fields[1..], redaction, Pass(message, fields[0], redaction, separator), separator)
  }

  /** Splitting the field list splits the redaction into two consecutive runs. */
  lemma {:induction false} FilterDatumAppend(a: seq<string>, b: seq<string>, redaction: string, message: string, separator: string)
    requires WellFormed(a + b, redaction, separator)
    ensures WellFormed(a, redaction, separator) && WellFormed(b, redaction, separator)
    ensures FilterDatum(a + b, redaction, message, separator)
         == FilterDatum(b, redaction, FilterDatum(a, redaction, message, separator), separator)
    decreases |a|
  {
    assert forall f :: f in a ==> f in a + b;
    assert forall f :: f in b ==> f in a + b;
    if |a| == 0 {
      assert a + b == b;
    } else {
      assert (a + b)[1..] == a[1..] + b;
      FilterDatumAppend(a[1..], b, redaction, Pass(message, a[0], redaction, separator), separator);
    }
  }

  /**
   A prefix in which no match starts is copied unchanged, and the pass acts
   on the rest as it would on its own.
   */
  lemma PassSkip(a: string, b: string, f: string, redaction: string, sep: string)
    requires Literal(f) && Literal(sep) && '\\' !in redaction
    requires forall i: nat, k: nat :: i < |a| ==> !Candidate(a + b, f, sep, i, k)
    ensures Pass(a + b, f, redaction, sep) == a + Pass(b, f, redaction, sep)
  {
    match Scan(b, f, sep)
    case None =>
      NoCandidateSkip(a, b, f, sep);
      assert Pass(b, f, redaction, sep) == b;
    case Some(m) =>
      ChosenSkip(a, b, f, sep, m.start, m.valueLen);
      PassChosenSkip(a, b, f, redaction, sep, m.start, m.valueLen);
  }

  lemma PassChosenSkip(a: string, b: string, f: string, redaction: string, sep: string, i: nat, k: nat)
    requires Literal(f) && Literal(sep) && '\\' !in redaction
    requires Chosen(b, f, sep, i, k) && Chosen(a + b, f, sep, |a| + i, k)
    ensures Pass(a + b, f, redaction, sep) == a + Pass(b, f, redaction, sep)
  {
    var e := i + |f| + 1 + k + |sep|;
    var r := Replacement(f, redaction, sep);
    assert Pass(b, f, redaction, sep) == b[..i] + r + b[e..];
    assert Pass(a + b, f, redaction, sep) == (a + b)[..|a| + i] + r + (a + b)[|a| + e..];
    assert (a + b)[..|a| + i] == a + b[..i];
    assert (a + b)[|a| + e..] == b[e..];
    ConcatAssoc(a, b[..i], r, b[e..]);
  }

  lemma NoCandidateSkip(a: string, b: string, f: string, sep: string)
    requires forall i: nat, k: nat :: i < |a| ==> !Candidate(a + b, f, sep, i, k)
    requires NoCandidate(b, f, sep)
    ensures NoCandidate(a + b, f, sep)
  {
    CandidateSuffix(a, b, f, sep);
    forall i: nat, k: nat
      ensures !Candidate(a + b, f, sep, i, k)
    {
      if |a| <= i {
        assert !Candidate(b, f, sep, i - |a|, k);
      }
    }
  }

  lemma ChosenSkip(a: string, b: string, f: string, sep: string, i: nat, k: nat)
    requires forall i: nat, k: nat :: i < |a| ==> !Candidate(a + b, f, sep, i, k)
    requires Chosen(b, f, sep, i, k)
    ensures Chosen(a + b, f, sep, |a| + i, k)
  {
    CandidateSuffix(a, b, f, sep);
    assert Candidate(a + b, f, sep, |a| + i, k);
  }

  lemma ConcatAssoc(a: string, x: string, r: string, y: string)
    ensures (a + x) + r + y == a + (x + r + y)
  {
  }
}

=== FILE: rows.dfy ===
/**
 The row renderer of `main`: a row fetched from the `users` table becomes the
 message `k=v;` for each column name `k` and value `v` taken pairwise (the
 shorter of the two sequences decides how many pairs there are), and that
 message goes through the redacting formatter.

 The lemmas here describe what a field pass does to such a rendered line:
 it masks the value of the first column whose name ends with the field name
 (the pattern has no key boundary), and with the program's own column list
 the formatter masks exactly the five PII values.
 */
module Rows {
  import opened Redactor
  import opened Formatter

  /** The column names `main` pairs with each row. */
  const MainFields: seq<string> := ["name", "email", "phone", "ssn", "password", "ip", "last_login", "user_agent"]

  /** Python's `zip`: pairs up to the shorter length. */
  function Zip(keys: seq<string>, row: seq<string>): (pairs: seq<(string, string)>)
    ensures |pairs| == if |keys| < |row| then |keys| else |row|
    ensures forall i :: 0 <= i < |pairs| ==> pairs[i] == (keys[i], row[i])
  {
    if |keys| == 0 || |row| == 0 then []
    else [(keys[0], row[0])] + Zip(keys[1..], row[1..])
  }

  function Segment(key: string, value: string): string {
    key + "=" + value + ";"
  }

  /** `''.join(f'{k}={v};' for k, v in pairs)`. */
  function Join(pairs: seq<(string, string)>): string {
    if |pairs| == 0 then ""
    else Segment(pairs[0].0, pairs[0].1) + Join(pairs[1..])
  }

  /** Rendering is segment-wise: joining two pair lists is joining each and concatenating. */
  lemma {:induction false} JoinAppend(a: seq<(string, string)>, b: seq<(string, string)>)
    ensures Join(a + b) == Join(a) + Join(b)
    decreases |a|
  {
    if |a| == 0 {
      assert a + b == b;
    } else {
      assert (a + b)[1..] == a[1..] + b;
      JoinAppend(a[1..], b);
    }
  }

  /** `''.join(f'{k}={v};' for k, v in zip(keys, row))`: the message `main` logs for a row. */
  function RenderRow(keys: seq<string>, row: seq<string>): (line: string)
    ensures |keys| == 0 || |row| == 0 ==> line == ""
    ensures |keys| != 0 && |row| != 0 ==> Segment(keys[0], row[0]) <= line
  {
    Join(Zip(keys, row))
  }

  /** `zip` of two prefixes of length `n` followed by `zip` of the rest is `zip` of the whole. */
  lemma ZipSplit(keys: seq<string>, row: seq<string>, n: nat)
    requires n <= |keys| && n <= |row|
    ensures Zip(keys, row) == Zip(keys[..n], row[..n]) + Zip(keys[n..], row[n..])
  {
    var whole, front, back := Zip(keys, row), Zip(keys[..n], row[..n]), Zip(keys[n..], row[n..]);
    assert |whole| == |front| + |back|;
    forall i | 0 <= i < |whole|
      ensures whole[i] == (front + back)[i]
    {
      if i >= n {
        assert back[i - n] == (keys[n..][i - n], row[n..][i - n]);
      }
    }
  }

  /** Values past the last column, or columns past the last value, add nothing to the line. */
  lemma RenderRowTruncates(keys: seq<string>, row: seq<string>)
    ensures var m := if |keys| < |row| then |keys| else |row|;
            RenderRow(keys, row) == RenderRow(keys[..m], row[..m])
  {
    var m := if |keys| < |row| then |keys| else |row|;
    assert Zip(keys, row) == Zip(keys[..m], row[..m]);
  }

  /** A further column with a value appends exactly its `k=v;` segment, after the earlier ones. */
  lemma RenderRowAppend(keys: seq<string>, row: seq<string>, key: string, value: string)
    requires |keys| == |row|
    ensures RenderRow(keys + [key], row + [value]) == RenderRow(keys, row) + Segment(key, value)
  {
    var n := |keys|;
    ZipSplit(keys + [key], row + [value], n);
    assert (keys + [key])[..n] == keys && (row + [value])[..n] == row;
    assert (keys + [key])[n..] == [key] && (row + [value])[n..] == [value];
    assert Zip([key], [value]) == [(key, value)];
    JoinAppend(Zip(keys, row), [(key, value)]);
    assert [(key, value)][1..] == [];
    assert Join([(key, value)]) == Segment(key, value) + "";
  }

  /** Text that cannot end a value, start one, or stop the pattern's `.`. */
  predicate Plain(t: string) {
    ';' !in t && '=' !in t && '\n' !in t
  }

  /** A value a match can span whole: no `;` to end it early and no newline to stop the pattern's `.`. */
  predicate Maskable(v: string) {
    ';' !in v && '\n' !in v
  }

  predicate PlainPairs(pairs: seq<(string, string)>) {
    forall i :: 0 <= i < |pairs| ==> Plain(pairs[i].0) && Plain(pairs[i].1)
  }

  predicate IsSuffix(f: string, key: string) {
    |f| <= |key| && key[|key| - |f|..] == f
  }

  function CountChar(c: char, t: string): nat {
    if |t| == 0 then 0
    else (if t[0] == c then 1 else 0) + CountChar(c, t[1..])
  }

  lemma {:induction false} CountCharAppend(c: char, x: string, y: string)
    ensures CountChar(c, x + y) == CountChar(c, x) + CountChar(c, y)
    decreases |x|
  {
    if |x| == 0 {
      assert x + y == y;
    } else {
      assert (x + y)[1..] == x[1..] + y;
      CountCharAppend(c, x[1..], y);
    }
  }

  lemma CountCharAbsent(c: char, t: string)
    requires c !in t
    ensures CountChar(c, t) == 0
  {
  }

  /**
   The rendered line holds one `;` per emitted pair: as many segments as the
   shorter of the column list and the row.
   */
  lemma {:induction false} RenderedSegmentCount(keys: seq<string>, row: seq<string>)
    requires forall k :: k in keys ==> ';' !in k
    requires forall v :: v in row ==> ';' !in v
    ensures CountChar(';', RenderRow(keys, row)) == if |keys| < |row| then |keys| else |row|
    decreases |keys|
  {
    if |keys| != 0 && |row| != 0 {
      var k, v := keys[0], row[0];
      assert k in keys && v in row;
      assert Segment(k, v) == k + "=" + v + ";";
      CountCharAppend(';', k + "=" + v, ";");
      CountCharAppend(';', k + "=", v);
      CountCharAppend(';', k, "=");
      CountCharAbsent(';', k);
      CountCharAbsent(';', v);
      CountCharAppend(';', Segment(k, v), RenderRow(keys[1..], row[1..]));
      assert forall x :: x in keys[1..] ==> x in keys;
      assert forall x :: x in row[1..] ==> x in row;
      RenderedSegmentCount(keys[1..], row[1..]);
    }
  }

  /** The reference for one field pass: mask the value of the first pair whose key ends with `f`. */
  function MaskFirst(pairs: seq<(string, string)>, f: string, redaction: string): (r: seq<(string, string)>)
    ensures |r| == |pairs|
    ensures forall i :: 0 <= i < |r| ==> r[i].0 == pairs[i].0
    ensures forall i :: 0 <= i < |r| ==> r[i].1 == pairs[i].1 || r[i].1 == redaction
  {
    if |pairs| == 0 then []
    else if IsSuffix(f, pairs[0].0) then [(pairs[0].0, redaction)] + pairs[1..]
    else [pairs[0]] + MaskFirst(pairs[1..], f, redaction)
  }

  /** The reference for `filter_datum` on a rendered line: `MaskFirst` for each field in turn. */
  function MaskEach(fields: seq<string>, pairs: seq<(string, string)>, redaction: string): (r: seq<(string, string)>)
    ensures |r| == |pairs|
    ensures forall i :: 0 <= i < |r| ==> r[i].0 == pairs[i].0
    ensures forall i :: 0 <= i < |r| ==> r[i].1 == pairs[i].1 || r[i].1 == redaction
    decreases |fields|
  {
    if |fields| == 0 then pairs
    else MaskEach(fields[1..], MaskFirst(pairs, fields[0], redaction), redaction)
  }

  /** When `f` ends the first key, the chosen match is that key's `f=` and its whole value. */
  lemma SuffixChosen(key: string, value: string, tail: string, f: string)
    requires Plain(key) && Maskable(value) && IsSuffix(f, key)
    ensures Chosen(Segment(key, value) + tail, f, ";", |key| - |f|, |value|)
  {
    var line := Segment(key, value) + tail;
    var p := |key| - |f|;
    assert line == key + "=" + value + ";" + tail;
    assert line[p..|key| + 1] == key[p..] + "=";
    assert Candidate(line, f, ";", p, |value|) by {
      var t := line[|key| + 1..];
      assert t == value + ";" + tail;
      assert t[|value|..|value| + 1] == ";";
      forall j | 0 <= j < |value|
        ensures t[j] != '\n'
      {
        assert t[j] == value[j];
        assert value[j] in value;
      }
    }
    forall i': nat, k': nat
      ensures Candidate(line, f, ";", i', k') ==> p < i' || (p == i' && |value| <= k')
    {
      if i' < p && i' + |f| + 1 <= |line| {
        assert line[i'..i' + |f| + 1][|f|] == line[i' + |f|] == key[i' + |f|];
        assert key[i' + |f|] in key;
        assert (f + "=")[|f|] == '=';
      } else if i' == p && k' < |value| {
        var t := line[|key| + 1..];
        assert t[k'..k' + 1][0] == t[k'] == value[k'];
        assert value[k'] in value;
      }
    }
  }

  /** When `f` does not end the first key, no match starts inside the first segment. */
  lemma SegmentSkipped(key: string, value: string, tail: string, f: string)
    requires Plain(key) && Plain(value) && Plain(f) && !IsSuffix(f, key)
    ensures forall i: nat, k: nat :: i < |Segment(key, value)| ==> !Candidate(Segment(key, value) + tail, f, ";", i, k)
  {
    var seg := Segment(key, value);
    var line := seg + tail;
    assert seg == key + "=" + value + ";";
    forall i: nat | i < |seg|
      ensures !FieldAt(line, f, i)
    {
      if i + |f| + 1 <= |line| {
        FieldAtSegment(key, value, tail, f, i);
      }
    }
    forall i: nat, k: nat | i < |seg|
      ensures !Candidate(line, f, ";", i, k)
    {
      assert !FieldAt(line, f, i);
    }
  }

  /** `f=` occurs in `line` at index `i`. */
  predicate FieldAt(line: string, f: string, i: nat) {
    i + |f| + 1 <= |line| && line[i..i + |f| + 1] == f + "="
  }

  lemma FieldAtSegment(key: string, value: string, tail: string, f: string, i: nat)
    requires Plain(key) && Plain(value) && Plain(f) && !IsSuffix(f, key)
    requires i < |Segment(key, value)| && i + |f| + 1 <= |Segment(key, value) + tail|
    ensures (Segment(key, value) + tail)[i..i + |f| + 1] != f + "="
  {
    var line := Segment(key, value) + tail;
    assert line == key + "=" + value + ";" + tail;
    var e := i + |f|;
    if e < |key| {
      assert line[e] == key[e];
      assert key[e] in key;
      assert line[i..i + |f| + 1][|f|] == line[e];
    } else if e == |key| {
      assert line[i..e] == key[i..];
      assert line[i..i + |f| + 1][..|f|] == line[i..e];
      assert (f + "=")[..|f|] == f;
    } else if e <= |key| + |value| {
      assert line[e] == value[e - |key| - 1];
      assert value[e - |key| - 1] in value;
      assert line[i..i + |f| + 1][|f|] == line[e];
    } else if e == |key| + |value| + 1 {
      assert line[e] == ';';
      assert line[i..i + |f| + 1][|f|] == line[e];
    } else {
      var q := |key| + |value| + 1;
      assert line[q] == ';';
      assert line[i..i + |f| + 1][q - i] == line[q];
      assert (f + "=")[q - i] == f[q - i];
      assert f[q - i] in f;
    }
  }

  /** A field pass over a rendered line masks exactly what `MaskFirst` masks. */
  lemma {:induction false} PassJoin(pairs: seq<(string, string)>, f: string, redaction: string)
    requires PlainPairs(pairs)
    requires Plain(f) && Literal(f) && '\\' !in redaction
    ensures Literal(";")
    ensures Pass(Join(pairs), f, redaction, ";") == Join(MaskFirst(pairs, f, redaction))
    decreases |pairs|
  {
    assert ';' !in RegexSpecial;
    if |pairs| == 0 {
      assert NoCandidate(Join(pairs), f, ";");
    } else {
      var key, value := pairs[0].0, pairs[0].1;
      var tail := Join(pairs[1..]);
      assert Join(pairs) == Segment(key, value) + tail;
      if IsSuffix(f, key) {
        PassFirstSegment(key, value, tail, f, redaction);
        assert ([(key, redaction)] + pairs[1..])[1..] == pairs[1..];
      } else {
        SegmentSkipped(key, value, tail, f);
        PassSkip(Segment(key, value), tail, f, redaction, ";");
        PassJoin(pairs[1..], f, redaction);
        assert ([pairs[0]] + MaskFirst(pairs[1..], f, redaction))[1..] == MaskFirst(pairs[1..], f, redaction);
      }
    }
  }

  lemma PassFirstSegment(key: string, value: string, tail: string, f: string, redaction: string)
    requires Plain(key) && Maskable(value) && IsSuffix(f, key)
    requires Literal(f) && Literal(";") && '\\' !in redaction
    ensures Pass(Segment(key, value) + tail, f, redaction, ";") == Segment(key, redaction) + tail
  {
    SuffixChosen(key, value, tail, f);
    FirstSegmentSplice(key, value, tail, f, redaction);
  }

  /** Splicing the replacement over the first value of a line rebuilds the line with the token. */
  lemma FirstSegmentSplice(key: string, value: string, tail: string, f: string, redaction: string)
    requires IsSuffix(f, key)
    ensures var line := Segment(key, value) + tail;
            var p := |key| - |f|;
            line[..p] + Replacement(f, redaction, ";") + line[p + |f| + 1 + |value| + 1..]
            == Segment(key, redaction) + tail
  {
    var line := Segment(key, value) + tail;
    var p := |key| - |f|;
    assert line == key + "=" + value + ";" + tail;
    assert line[..p] == key[..p];
    assert key[..p] + f == key;
    assert line[p + |f| + 1 + |value| + 1..] == tail;
  }

  /** `filter_datum` over a rendered line with `;` masks what `MaskEach` masks. */
  lemma {:induction false} FilterJoin(fields: seq<string>, pairs: seq<(string, string)>, redaction: string)
    requires PlainPairs(pairs)
    requires forall f :: f in fields ==> Plain(f) && Literal(f)
    requires Plain(redaction) && '\\' !in redaction
    ensures WellFormed(fields, redaction, ";")
    ensures FilterDatum(fields, redaction, Join(pairs), ";") == Join(MaskEach(fields, pairs, redaction))
    decreases |fields|
  {
    assert ';' !in RegexSpecial;
    if |fields| != 0 {
      var f := fields[0];
      assert f in fields;
      PassJoin(pairs, f, redaction);
      assert forall g :: g in fields[1..] ==> g in fields;
      FilterJoin(fields[1..], MaskFirst(pairs, f, redaction), redaction);
    }
  }

  /** Some key of `pairs` ends with `f`, so a pass for `f` stops inside the pairs. */
  predicate KeyEnds(pairs: seq<(string, string)>, f: string) {
    exists i :: 0 <= i < |pairs| && IsSuffix(f, pairs[i].0)
  }

  /**
   A field pass over a rendered line followed by arbitrary text: when a key
   of the plain pairs ends with `f`, the match lies in the pairs and the text
   after them is kept, whatever it holds.
   */
  lemma {:induction false} PassJoinTail(pairs: seq<(string, string)>, tail: string, f: string, redaction: string)
    requires PlainPairs(pairs) && KeyEnds(pairs, f)
    requires Plain(f) && Literal(f) && '\\' !in redaction
    ensures Literal(";")
    ensures Pass(Join(pairs) + tail, f, redaction, ";") == Join(MaskFirst(pairs, f, redaction)) + tail
    decreases |pairs|
  {
    assert ';' !in RegexSpecial;
    if IsSuffix(f, pairs[0].0) {
      PassHeadSegment(pairs, tail, f, redaction);
    } else {
      KeyEndsRest(pairs, f);
      PassJoinTail(pairs[1..], tail, f, redaction);
      PassSkipSegment(pairs, tail, f, redaction);
    }
  }

  /** Splitting off the first segment of a rendered line followed by more text. */
  lemma JoinCons(pairs: seq<(string, string)>, tail: string)
    requires |pairs| > 0
    ensures Join(pairs) + tail == Segment(pairs[0].0, pairs[0].1) + (Join(pairs[1..]) + tail)
  {
  }

  /** The first key ends with `f`: its value is masked and everything after it is kept. */
  lemma PassHeadSegment(pairs: seq<(string, string)>, tail: string, f: string, redaction: string)
    requires PlainPairs(pairs) && |pairs| > 0 && IsSuffix(f, pairs[0].0)
    requires Literal(f) && Literal(";") && '\\' !in redaction
    ensures Pass(Join(pairs) + tail, f, redaction, ";") == Join(MaskFirst(pairs, f, redaction)) + tail
  {
    var key, value := pairs[0].0, pairs[0].1;
    var rest := Join(pairs[1..]) + tail;
    JoinCons(pairs, tail);
    PassFirstSegment(key, value, rest, f, redaction);
    MaskFirstHead(pairs, f, redaction);
    Assoc(Segment(key, redaction), Join(pairs[1..]), tail);
  }

  lemma Assoc(x: string, y: string, z: string)
    ensures x + (y + z) == (x + y) + z
  {
  }

  lemma MaskFirstHead(pairs: seq<(string, string)>, f: string, redaction: string)
    requires |pairs| > 0 && IsSuffix(f, pairs[0].0)
    ensures Join(MaskFirst(pairs, f, redaction)) == Segment(pairs[0].0, redaction) + Join(pairs[1..])
  {
    assert ([(pairs[0].0, redaction)] + pairs[1..])[1..] == pairs[1..];
  }

  lemma KeyEndsRest(pairs: seq<(string, string)>, f: string)
    requires KeyEnds(pairs, f) && !IsSuffix(f, pairs[0].0)
    ensures KeyEnds(pairs[1..], f)
  {
    var i :| 0 <= i < |pairs| && IsSuffix(f, pairs[i].0);
    assert pairs[1..][i - 1] == pairs[i];
  }

  /** The first segment, whose key `f` does not end, is copied and the pass acts on the rest. */
  lemma PassSkipSegment(pairs: seq<(string, string)>, tail: string, f: string, redaction: string)
    requires PlainPairs(pairs) && |pairs| > 0 && !IsSuffix(f, pairs[0].0)
    requires Plain(f) && Literal(f) && Literal(";") && '\\' !in redaction
    requires Pass(Join(pairs[1..]) + tail, f, redaction, ";") == Join(MaskFirst(pairs[1..], f, redaction)) + tail
    ensures Pass(Join(pairs) + tail, f, redaction, ";") == Join(MaskFirst(pairs, f, redaction)) + tail
  {
    var seg := Segment(pairs[0].0, pairs[0].1);
    var rest := Join(pairs[1..]) + tail;
    JoinCons(pairs, tail);
    SegmentSkipped(pairs[0].0, pairs[0].1, rest, f);
    PassSkip(seg, rest, f, redaction, ";");
    assert MaskFirst(pairs, f, redaction) == [pairs[0]] + MaskFirst(pairs[1..], f, redaction);
    JoinCons(MaskFirst(pairs, f, redaction), tail);
    assert ([pairs[0]] + MaskFirst(pairs[1..], f, redaction))[1..] == MaskFirst(pairs[1..], f, redaction);
  }

  /** `filter_datum` over plain pairs followed by arbitrary text, when every field ends some key. */
  lemma {:induction false} FilterJoinTail(fields: seq<string>, pairs: seq<(string, string)>, tail: string, redaction: string)
    requires PlainPairs(pairs)
    requires forall f :: f in fields ==> Plain(f) && Literal(f) && KeyEnds(pairs, f)
    requires Plain(redaction) && '\\' !in redaction
    ensures WellFormed(fields, redaction, ";")
    ensures FilterDatum(fields, redaction, Join(pairs) + tail, ";") == Join(MaskEach(fields, pairs, redaction)) + tail
    decreases |fields|
  {
    assert ';' !in RegexSpecial;
    if |fields| != 0 {
      var f := fields[0];
      assert f in fields;
      PassJoinTail(pairs, tail, f, redaction);
      var once := MaskFirst(pairs, f, redaction);
      forall g | g in fields[1..]
        ensures Plain(g) && Literal(g) && KeyEnds(once, g)
      {
        assert g in fields;
        var i :| 0 <= i < |pairs| && IsSuffix(g, pairs[i].0);
        assert once[i].0 == pairs[i].0;
      }
      FilterJoinTail(fields[1..], once, tail, redaction);
    }
  }

  /** The keys of `pairs`, in order. */
  function Keys(pairs: seq<(string, string)>): seq<string> {
    seq(|pairs|, i requires 0 <= i < |pairs| => pairs[i].0)
  }

  /** `pairs` with every value replaced by `redaction`. */
  function Redacted(pairs: seq<(string, string)>, redaction: string): seq<(string, string)> {
    seq(|pairs|, i requires 0 <= i < |pairs| => (pairs[i].0, redaction))
  }

  /** No key of `pairs` ends with `f`. */
  predicate EndsNone(pairs: seq<(string, string)>, f: string) {
    forall k :: 0 <= k < |pairs| ==> !IsSuffix(f, pairs[k].0)
  }

  /** No key ends with a later key: a pass for a key cannot stop at an earlier column. */
  predicate InOrder(pairs: seq<(string, string)>) {
    forall i, k :: 0 <= k < i < |pairs| ==> !IsSuffix(pairs[i].0, pairs[k].0)
  }

  lemma IsSuffixSelf(key: string)
    ensures IsSuffix(key, key)
  {
    assert key[|key| - |key|..] == key;
  }

  lemma JoinSnoc(pairs: seq<(string, string)>, key: string, value: string)
    ensures Join(pairs + [(key, value)]) == Join(pairs) + Segment(key, value)
  {
    JoinAppend(pairs, [(key, value)]);
    assert [(key, value)][1..] == [];
    assert Join([(key, value)]) == Segment(key, value) + "";
  }

  /**
   A field pass over plain pairs, none of whose keys ends with `f`, then a
   segment whose key does: the pairs are copied and that segment's value is
   masked, whatever the value holds besides `;` and newlines, and whatever
   follows.
   */
  lemma {:induction false} PassAfterPrefix(done: seq<(string, string)>, key: string, value: string, tail: string, f: string, redaction: string)
    requires PlainPairs(done) && EndsNone(done, f)
    requires Plain(key) && Maskable(value) && IsSuffix(f, key)
    requires Plain(f) && Literal(f) && '\\' !in redaction
    ensures Literal(";")
    ensures Pass(Join(done) + (Segment(key, value) + tail), f, redaction, ";") == Join(done) + (Segment(key, redaction) + tail)
    decreases |done|
  {
    assert ';' !in RegexSpecial;
    if |done| == 0 {
      PassFirstSegment(key, value, tail, f, redaction);
      assert Join(done) == "";
      assert "" + (Segment(key, value) + tail) == Segment(key, value) + tail;
      assert "" + (Segment(key, redaction) + tail) == Segment(key, redaction) + tail;
    } else {
      PassAfterPrefix(done[1..], key, value, tail, f, redaction);
      PrefixSegmentSkipped(done, Segment(key, value) + tail, f, redaction);
      PrefixSegmentSkipped(done, Segment(key, redaction) + tail, f, redaction);
    }
  }

  /** One step of `PassAfterPrefix`: the first of the pairs is copied. */
  lemma PrefixSegmentSkipped(done: seq<(string, string)>, rest: string, f: string, redaction: string)
    requires |done| > 0 && PlainPairs(done) && EndsNone(done, f)
    requires Plain(f) && Literal(f) && Literal(";") && '\\' !in redaction
    ensures Join(done) + rest == Segment(done[0].0, done[0].1) + (Join(done[1..]) + rest)
    ensures Pass(Join(done) + rest, f, redaction, ";")
         == Segment(done[0].0, done[0].1) + Pass(Join(done[1..]) + rest, f, redaction, ";")
  {
    var seg := Segment(done[0].0, done[0].1);
    JoinCons(done, rest);
    SegmentSkipped(done[0].0, done[0].1, Join(done[1..]) + rest, f);
    PassSkip(seg, Join(done[1..]) + rest, f, redaction, ";");
  }

  /**
   `filter_datum` with the keys of `todo` as fields, in column order, over
   plain pairs already done followed by `todo` and any text: each pass masks
   its own column, so every value of `todo` is masked and the rest is kept.
   */
  lemma {:induction false} MaskInOrder(done: seq<(string, string)>, todo: seq<(string, string)>, tail: string, redaction: string)
    requires PlainPairs(done) && Plain(redaction) && '\\' !in redaction
    requires forall i :: 0 <= i < |todo| ==>
               Plain(todo[i].0) && Literal(todo[i].0) && Maskable(todo[i].1) && EndsNone(done, todo[i].0)
    requires InOrder(todo)
    ensures WellFormed(Keys(todo), redaction, ";")
    ensures FilterDatum(Keys(todo), redaction, Join(done) + (Join(todo) + tail), ";")
         == Join(done) + (Join(Redacted(todo, redaction)) + tail)
    decreases |todo|
  {
    assert ';' !in RegexSpecial;
    assert forall f :: f in Keys(todo) ==> Literal(f);
    if |todo| != 0 {
      var key := todo[0].0;
      var done' := done + [(key, redaction)];
      MaskStepLine(done, todo, tail, redaction);
      MaskStepPre(done, todo, redaction);
      MaskInOrder(done', todo[1..], tail, redaction);
      MaskStepResult(done, todo, tail, redaction);
      assert Keys(todo)[1..] == Keys(todo[1..]) && Keys(todo)[0] == key;
    }
  }

  lemma MaskStepLine(done: seq<(string, string)>, todo: seq<(string, string)>, tail: string, redaction: string)
    requires |todo| > 0 && PlainPairs(done) && '\\' !in redaction
    requires Plain(todo[0].0) && Literal(todo[0].0) && Maskable(todo[0].1) && EndsNone(done, todo[0].0)
    ensures Literal(";")
    ensures Pass(Join(done) + (Join(todo) + tail), todo[0].0, redaction, ";")
         == Join(done + [(todo[0].0, redaction)]) + (Join(todo[1..]) + tail)
  {
    var key, value := todo[0].0, todo[0].1;
    JoinCons(todo, tail);
    IsSuffixSelf(key);
    PassAfterPrefix(done, key, value, Join(todo[1..]) + tail, key, redaction);
    JoinSnoc(done, key, redaction);
    Assoc(Join(done), Segment(key, redaction), Join(todo[1..]) + tail);
  }

  lemma MaskStepPre(done: seq<(string, string)>, todo: seq<(string, string)>, redaction: string)
    requires |todo| > 0 && PlainPairs(done) && Plain(redaction)
    requires forall i :: 0 <= i < |todo| ==>
               Plain(todo[i].0) && Literal(todo[i].0) && Maskable(todo[i].1) && EndsNone(done, todo[i].0)
    requires InOrder(todo)
    ensures PlainPairs(done + [(todo[0].0, redaction)])
    ensures forall i :: 0 <= i < |todo[1..]| ==>
              Plain(todo[1..][i].0) && Literal(todo[1..][i].0) && Maskable(todo[1..][i].1)
              && EndsNone(done + [(todo[0].0, redaction)], todo[1..][i].0)
    ensures InOrder(todo[1..])
  {
    var done' := done + [(todo[0].0, redaction)];
    forall i | 0 <= i < |todo[1..]|
      ensures EndsNone(done', todo[1..][i].0)
    {
      assert todo[1..][i] == todo[i + 1];
      assert EndsNone(done, todo[i + 1].0);
      assert !IsSuffix(todo[i + 1].0, todo[0].0);
    }
    forall i, k | 0 <= k < i < |todo[1..]|
      ensures !IsSuffix(todo[1..][i].0, todo[1..][k].0)
    {
      assert todo[1..][i] == todo[i + 1] && todo[1..][k] == todo[k + 1];
    }
  }

  lemma MaskStepResult(done: seq<(string, string)>, todo: seq<(string, string)>, tail: string, redaction: string)
    requires |todo| > 0
    ensures Join(done + [(todo[0].0, redaction)]) + (Join(Redacted(todo[1..], redaction)) + tail)
         == Join(done) + (Join(Redacted(todo, redaction)) + tail)
  {
    var red := Redacted(todo, redaction);
    JoinSnoc(done, todo[0].0, redaction);
    assert red[1..] == Redacted(todo[1..], redaction);
    JoinCons(red, tail);
    Assoc(Join(done), Segment(todo[0].0, redaction), Join(red[1..]) + tail);
  }

  /** The reference for the whole redaction: every pair whose key is one of `fields` gets `redaction`. */
  function MaskKeys(pairs: seq<(string, string)>, fields: seq<string>, redaction: string): seq<(string, string)> {
    seq(|pairs|, i requires 0 <= i < |pairs| =>
      (pairs[i].0, if pairs[i].0 in fields then redaction else pairs[i].1))
  }

  predicate DistinctKeys(pairs: seq<(string, string)>) {
    forall i, j :: 0 <= i < j < |pairs| ==> pairs[i].0 != pairs[j].0
  }

  /** Each field name ends no key but the one equal to it. */
  predicate OwnKeys(fields: seq<string>, pairs: seq<(string, string)>) {
    forall f, i :: f in fields && 0 <= i < |pairs| && IsSuffix(f, pairs[i].0) ==> f == pairs[i].0
  }

  lemma {:induction false} MaskFirstOwnKey(pairs: seq<(string, string)>, f: string, redaction: string)
    requires DistinctKeys(pairs) && OwnKeys([f], pairs)
    ensures MaskFirst(pairs, f, redaction) == MaskKeys(pairs, [f], redaction)
    decreases |pairs|
  {
    if |pairs| != 0 {
      var key := pairs[0].0;
      if IsSuffix(f, key) {
        assert f in [f];
        assert f == key;
        forall i | 1 <= i < |pairs|
          ensures pairs[i].0 !in [f]
        {
        }
      } else {
        assert key[|key| - |key|..] == key;
        assert f != key;
        MaskFirstOwnKey(pairs[1..], f, redaction);
      }
    }
  }

  lemma {:induction false} MaskEachOwnKeys(fields: seq<string>, pairs: seq<(string, string)>, redaction: string)
    requires DistinctKeys(pairs) && OwnKeys(fields, pairs)
    ensures MaskEach(fields, pairs, redaction) == MaskKeys(pairs, fields, redaction)
    decreases |fields|
  {
    if |fields| == 0 {
      assert MaskKeys(pairs, fields, redaction) == pairs;
    } else {
      var f := fields[0];
      assert OwnKeys([f], pairs) by {
        forall g, i | g in [f] && 0 <= i < |pairs| && IsSuffix(g, pairs[i].0)
          ensures g == pairs[i].0
        {
          assert g == f && f in fields;
        }
      }
      MaskFirstOwnKey(pairs, f, redaction);
      var once := MaskKeys(pairs, [f], redaction);
      assert OwnKeys(fields[1..], once) by {
        assert forall g :: g in fields[1..] ==> g in fields;
      }
      MaskEachOwnKeys(fields[1..], once, redaction);
      assert fields == [f] + fields[1..];
      forall i | 0 <= i < |pairs|
        ensures MaskKeys(once, fields[1..], redaction)[i] == MaskKeys(pairs, fields, redaction)[i]
      {
        assert pairs[i].0 in fields <==> pairs[i].0 in [f] || pairs[i].0 in fields[1..];
      }
    }
  }

  /** The facts about the two constant lists that the redaction of a row relies on. */
  lemma MainFieldsOwned()
    ensures forall i :: 0 <= i < |MainFields| ==> Plain(MainFields[i])
    ensures forall i, j :: 0 <= i < j < |MainFields| ==> MainFields[i] != MainFields[j]
    ensures forall f, i :: f in PiiFields && 0 <= i < |MainFields| && IsSuffix(f, MainFields[i]) ==> f == MainFields[i]
    ensures forall i :: 0 <= i < |MainFields| ==> (MainFields[i] in PiiFields <==> i < |PiiFields|)
  {
    MainFieldsPlain();
    MainFieldsDistinct();
    PiiSuffixes();
    PiiLeadMainFields();
  }

  lemma MainFieldsPlain()
    ensures forall i :: 0 <= i < |MainFields| ==> Plain(MainFields[i])
  {
  }

  lemma MainFieldsDistinct()
    ensures forall i, j :: 0 <= i < j < |MainFields| ==> MainFields[i] != MainFields[j]
  {
  }

  /** No PII field name is a proper suffix of a column name. */
  lemma PiiSuffixes()
    ensures forall f, i :: f in PiiFields && 0 <= i < |MainFields| && IsSuffix(f, MainFields[i]) ==> f == MainFields[i]
  {
    forall f, i | f in PiiFields && 0 <= i < |MainFields| && IsSuffix(f, MainFields[i])
      ensures f == MainFields[i]
    {
      var key := MainFields[i];
      assert key[|key| - |f|..] == f;
    }
  }

  lemma PiiLeadMainFields()
    ensures forall i :: 0 <= i < |MainFields| ==> (MainFields[i] in PiiFields <==> i < |PiiFields|)
  {
  }

  /** The row with its first `|PiiFields|` values, the PII columns of `MainFields`, replaced by `***`. */
  function MaskPii(row: seq<string>): seq<string> {
    seq(|row|, i requires 0 <= i < |row| => if i < |PiiFields| then Redaction else row[i])
  }

  /**
   Rendering a row with the program's column list and formatting it with the
   PII formatter masks exactly the first five values (`name`, `email`,
   `phone`, `ssn`, `password`) and keeps every other value, column name and
   the record's other attributes. A PII value only has to be free of `;` and
   newlines: the passes run in column order, so each finds its own column's
   key first, with every earlier value already masked. The trailing columns
   (`ip`, `last_login`, `user_agent`) come after every PII column, so no pass
   reaches them, whatever they hold.
   */
  lemma RedactedRowLine(loggerName: string, levelName: string, row: seq<string>)
    requires forall i :: 0 <= i < |row| && i < |PiiFields| ==> Maskable(row[i])
    ensures FormatRecord(PiiFormatter(), LogRecord(loggerName, levelName, RenderRow(MainFields, row)))
         == LogRecord(loggerName, levelName, RenderRow(MainFields, MaskPii(row)))
  {
    PiiRowFilter(row);
  }

  /** The message rewrite of `RedactedRowLine`. */
  lemma PiiRowFilter(row: seq<string>)
    requires forall i :: 0 <= i < |row| && i < |PiiFields| ==> Maskable(row[i])
    ensures WellFormed(PiiFields, Redaction, Separator)
    ensures FilterDatum(PiiFields, Redaction, RenderRow(MainFields, row), Separator) == RenderRow(MainFields, MaskPii(row))
  {
    var n := if |row| < |PiiFields| then |row| else |PiiFields|;
    var line := RenderRow(MainFields, row);
    var once := Join(Redacted(Zip(MainFields, row[..n]), Redaction)) + RenderRow(MainFields[n..], row[n..]);
    PiiFieldsPlain();
    assert ';' !in RegexSpecial;
    assert PiiFields == PiiFields[..n] + PiiFields[n..];
    FilterDatumAppend(PiiFields[..n], PiiFields[n..], Redaction, line, Separator);
    PresentColumns(row, n);
    RestUntouched(row, n);
    MaskedSplit(row, n);
  }

  /** The passes for the PII columns the row has mask exactly those columns. */
  lemma PresentColumns(row: seq<string>, n: nat)
    requires n == if |row| < |PiiFields| then |row| else |PiiFields|
    requires forall i :: 0 <= i < |row| && i < |PiiFields| ==> Maskable(row[i])
    ensures WellFormed(PiiFields[..n], Redaction, Separator)
    ensures FilterDatum(PiiFields[..n], Redaction, RenderRow(MainFields, row), Separator)
         == Join(Redacted(Zip(MainFields, row[..n]), Redaction)) + RenderRow(MainFields[n..], row[n..])
  {
    var todo := Zip(MainFields, row[..n]);
    var tail := RenderRow(MainFields[n..], row[n..]);
    RowSplit(row, n);
    assert RenderRow(MainFields, row) == [] + (Join(todo) + tail);
    PiiTodo(row, n);
    MaskInOrder([], todo, tail, Redaction);
  }

  /** The line of a row is the line of its first `n` values followed by that of the rest. */
  lemma RowSplit(row: seq<string>, n: nat)
    requires n <= |row| && n <= |MainFields|
    ensures RenderRow(MainFields, row) == RenderRow(MainFields, row[..n]) + RenderRow(MainFields[n..], row[n..])
  {
    ZipSplit(MainFields, row, n);
    assert Zip(MainFields[..n], row[..n]) == Zip(MainFields, row[..n]);
    JoinAppend(Zip(MainFields, row[..n]), Zip(MainFields[n..], row[n..]));
  }

  /** The PII columns present in a row satisfy what `MaskInOrder` needs. */
  lemma PiiTodo(row: seq<string>, n: nat)
    requires n == if |row| < |PiiFields| then |row| else |PiiFields|
    requires forall i :: 0 <= i < |row| && i < |PiiFields| ==> Maskable(row[i])
    ensures Keys(Zip(MainFields, row[..n])) == PiiFields[..n]
    ensures forall i :: 0 <= i < |Zip(MainFields, row[..n])| ==>
              var p := Zip(MainFields, row[..n])[i];
              Plain(p.0) && Literal(p.0) && Maskable(p.1) && EndsNone([], p.0)
    ensures InOrder(Zip(MainFields, row[..n]))
    ensures PlainPairs([]) && Plain(Redaction) && '\\' !in Redaction
  {
    var todo := Zip(MainFields, row[..n]);
    MainFieldsOwned();
    PiiFieldsPlain();
    forall i, k | 0 <= k < i < |todo|
      ensures !IsSuffix(todo[i].0, todo[k].0)
    {
      assert todo[i].0 == MainFields[i] && todo[k].0 == MainFields[k];
      assert MainFields[i] in PiiFields;
    }
    forall i | 0 <= i < |todo|
      ensures Literal(todo[i].0) && Maskable(todo[i].1)
    {
      assert MainFields[i] in PiiFields;
      assert row[..n][i] == row[i];
    }
  }

  /** PII fields with no column left in a short row find nothing to mask. */
  lemma RestUntouched(row: seq<string>, n: nat)
    requires n == if |row| < |PiiFields| then |row| else |PiiFields|
    ensures WellFormed(PiiFields[n..], Redaction, Separator)
    ensures var line := Join(Redacted(Zip(MainFields, row[..n]), Redaction)) + RenderRow(MainFields[n..], row[n..]);
            FilterDatum(PiiFields[n..], Redaction, line, Separator) == line
  {
    PiiSuffixWellFormed(n);
    if n < |PiiFields| {
      ShortRest(row, n);
    } else {
      assert PiiFields[n..] == [];
    }
  }

  lemma PiiSuffixWellFormed(n: nat)
    requires n <= |PiiFields|
    ensures forall f :: f in PiiFields[n..] ==> Plain(f) && Literal(f)
    ensures WellFormed(PiiFields[n..], Redaction, Separator)
  {
    PiiFieldsPlain();
    assert ';' !in RegexSpecial;
    assert forall f :: f in PiiFields[n..] ==> f in PiiFields;
  }

  lemma ShortRest(row: seq<string>, n: nat)
    requires n == |row| < |PiiFields|
    ensures WellFormed(PiiFields[n..], Redaction, Separator)
    ensures var line := Join(Redacted(Zip(MainFields, row[..n]), Redaction)) + RenderRow(MainFields[n..], row[n..]);
            FilterDatum(PiiFields[n..], Redaction, line, Separator) == line
  {
    var pairs := Redacted(Zip(MainFields, row[..n]), Redaction);
    assert RenderRow(MainFields[n..], row[n..]) == "";
    assert Join(pairs) + "" == Join(pairs);
    PiiSuffixWellFormed(n);
    RedactedPairs(row, n);
    StableLine(PiiFields[n..], pairs);
  }

  /** A rendered line whose values are all `***` comes back unchanged. */
  lemma StableLine(fields: seq<string>, pairs: seq<(string, string)>)
    requires forall f :: f in fields ==> Plain(f) && Literal(f)
    requires PlainPairs(pairs) && DistinctKeys(pairs) && OwnKeys(fields, pairs)
    requires forall i :: 0 <= i < |pairs| ==> pairs[i].1 == Redaction
    ensures WellFormed(fields, Redaction, Separator)
    ensures FilterDatum(fields, Redaction, Join(pairs), Separator) == Join(pairs)
  {
    PiiFieldsPlain();
    FilterJoin(fields, pairs, Redaction);
    RedactedStable(fields, pairs);
  }

  /** Pairs whose values are all `***` are left as they are by the reference redaction. */
  lemma RedactedStable(fields: seq<string>, pairs: seq<(string, string)>)
    requires DistinctKeys(pairs) && OwnKeys(fields, pairs)
    requires forall i :: 0 <= i < |pairs| ==> pairs[i].1 == Redaction
    ensures MaskEach(fields, pairs, Redaction) == pairs
  {
    MaskEachOwnKeys(fields, pairs, Redaction);
    assert MaskKeys(pairs, fields, Redaction) == pairs;
  }

  lemma RedactedPairs(row: seq<string>, n: nat)
    requires n == if |row| < |PiiFields| then |row| else |PiiFields|
    ensures var pairs := Redacted(Zip(MainFields, row[..n]), Redaction);
            && PlainPairs(pairs) && DistinctKeys(pairs) && OwnKeys(PiiFields[n..], pairs)
            && forall i :: 0 <= i < |pairs| ==> pairs[i].1 == Redaction
  {
    var pairs := Redacted(Zip(MainFields, row[..n]), Redaction);
    assert forall i :: 0 <= i < |pairs| ==> pairs[i] == (MainFields[i], Redaction);
    MainFieldsPlain();
    MainFieldsDistinct();
    PiiSuffixes();
    forall f, i | f in PiiFields[n..] && 0 <= i < |pairs| && IsSuffix(f, pairs[i].0)
      ensures f == pairs[i].0
    {
      assert f in PiiFields;
    }
  }

  /** The masked row renders as the redacted PII pairs followed by the untouched rest. */
  lemma MaskedSplit(row: seq<string>, n: nat)
    requires n == if |row| < |PiiFields| then |row| else |PiiFields|
    ensures RenderRow(MainFields, MaskPii(row))
         == Join(Redacted(Zip(MainFields, row[..n]), Redaction)) + RenderRow(MainFields[n..], row[n..])
  {
    var masked := MaskPii(row);
    RowSplit(masked, n);
    assert Zip(MainFields, masked[..n]) == Redacted(Zip(MainFields, row[..n]), Redaction);
    assert masked[n..] == row[n..];
  }

  lemma PiiFieldsPlain()
    ensures forall f :: f in PiiFields ==> Plain(f) && Literal(f)
    ensures Plain(Redaction) && '\\' !in Redaction
  {
  }
}

=== FILE: scenarios.dfy ===
/**
 Concrete messages and the result the model gives for each: the behaviours a reader of
 `filter_datum` is most likely to get wrong, each pinned to one input.
 */
module Scenarios {
  import opened Redactor
  import opened Formatter
  import opened Rows

  lemma JoinTwo(a: (string, string), b: (string, string))
    ensures Join([a, b]) == Segment(a.0, a.1) + Segment(b.0, b.1)
  {
    assert [a, b][1..] == [b];
    assert [b][1..] == [];
    assert Join([b]) == Segment(b.0, b.1) + "" == Segment(b.0, b.1);
  }

  lemma JoinThree(a: (string, string), b: (string, string), c: (string, string))
    ensures Join([a, b, c]) == Segment(a.0, a.1) + Segment(b.0, b.1) + Segment(c.0, c.1)
  {
    assert [a, b, c][1..] == [b, c];
    JoinTwo(b, c);
  }

  lemma JoinOne(a: (string, string))
    ensures Join([a]) == Segment(a.0, a.1)
  {
    assert [a][1..] == [];
    assert Join([a]) == Segment(a.0, a.1) + "";
  }

  /** `FilterDatum` on a rendered line, given the masking the reference predicts. */
  lemma MaskSteps(fields: seq<string>, pairs: seq<(string, string)>, masked: seq<(string, string)>)
    requires PlainPairs(pairs)
    requires forall f :: f in fields ==> Plain(f) && Literal(f)
    requires MaskEach(fields, pairs, "***") == masked
    ensures WellFormed(fields, "***", ";")
    ensures FilterDatum(fields, "***", Join(pairs), ";") == Join(masked)
  {
    FilterJoin(fields, pairs, "***");
  }

  /** Only the first `name=` is masked: one substitution per field per call. */
  lemma OnlyFirstOccurrence()
    ensures FilterDatum(["name"], "***", "name=John;name=Doe;", ";") == "name=***;name=Doe;"
  {
    var pairs := [("name", "John"), ("name", "Doe")];
    var masked := [("name", "***"), ("name", "Doe")];
    OnlyFirstLines();
    OnlyFirstMask();
    MaskSteps(["name"], pairs, masked);
  }

  lemma OnlyFirstLines()
    ensures Join([("name", "John"), ("name", "Doe")]) == "name=John;name=Doe;"
    ensures Join([("name", "***"), ("name", "Doe")]) == "name=***;name=Doe;"
  {
    JoinTwo(("name", "John"), ("name", "Doe"));
    JoinTwo(("name", "***"), ("name", "Doe"));
  }

  lemma OnlyFirstMask()
    ensures PlainPairs([("name", "John"), ("name", "Doe")])
    ensures forall f :: f in ["name"] ==> Plain(f) && Literal(f)
    ensures MaskEach(["name"], [("name", "John"), ("name", "Doe")], "***") == [("name", "***"), ("name", "Doe")]
  {
    assert IsSuffix("name", "name");
    assert ["name"][1..] == [];
  }

  /** The field name is matched as raw text: `name` also hits the tail of `username`. */
  lemma NoKeyBoundary()
    ensures FilterDatum(["name"], "***", "username=bob;", ";") == "username=***;"
  {
    var pairs := [("username", "bob")];
    var masked := [("username", "***")];
    JoinOne(pairs[0]);
    JoinOne(masked[0]);
    UsernameMask();
    MaskSteps(["name"], pairs, masked);
  }

  lemma UsernameMask()
    ensures Segment("username", "bob") == "username=bob;"
    ensures Segment("username", "***") == "username=***;"
    ensures PlainPairs([("username", "bob")])
    ensures forall f :: f in ["name"] ==> Plain(f) && Literal(f)
    ensures MaskEach(["name"], [("username", "bob")], "***") == [("username", "***")]
  {
    assert "username"[4..] == "name";
    assert ["name"][1..] == [];
  }

  /** Two fields, each masked in turn; the unlisted field keeps its value. */
  lemma TwoFields()
    ensures FilterDatum(["email", "phone"], "***", "email=a@b.com;phone=555;extra=x;", ";")
         == "email=***;phone=***;extra=x;"
  {
    var pairs := [("email", "a@b.com"), ("phone", "555"), ("extra", "x")];
    var masked := [("email", "***"), ("phone", "***"), ("extra", "x")];
    TwoFieldsLines();
    TwoFieldsPlain();
    TwoFieldsMask();
    MaskSteps(["email", "phone"], pairs, masked);
  }

  lemma TwoFieldsLines()
    ensures Join([("email", "a@b.com"), ("phone", "555"), ("extra", "x")]) == "email=a@b.com;phone=555;extra=x;"
    ensures Join([("email", "***"), ("phone", "***"), ("extra", "x")]) == "email=***;phone=***;extra=x;"
  {
    JoinThree(("email", "a@b.com"), ("phone", "555"), ("extra", "x"));
    JoinThree(("email", "***"), ("phone", "***"), ("extra", "x"));
  }

  lemma TwoFieldsPlain()
    ensures PlainPairs([("email", "a@b.com"), ("phone", "555"), ("extra", "x")])
    ensures forall f :: f in ["email", "phone"] ==> Plain(f) && Literal(f)
  {
  }

  lemma TwoFieldsMask()
    ensures MaskEach(["email", "phone"], [("email", "a@b.com"), ("phone", "555"), ("extra", "x")], "***")
         == [("email", "***"), ("phone", "***"), ("extra", "x")]
  {
    var pairs := [("email", "a@b.com"), ("phone", "555"), ("extra", "x")];
    var once := [("email", "***"), ("phone", "555"), ("extra", "x")];
    var twice := [("email", "***"), ("phone", "***"), ("extra", "x")];
    assert IsSuffix("email", "email") && IsSuffix("phone", "phone");
    assert !IsSuffix("phone", "email") by {
      assert "email"[0] != "phone"[0];
    }
    assert MaskFirst(pairs, "email", "***") == once;
    assert MaskFirst(once[1..], "phone", "***") == twice[1..];
    assert MaskFirst(once, "phone", "***") == twice;
    assert ["email", "phone"][1..] == ["phone"] && ["phone"][1..] == [];
  }

  /** A value may not run across a newline: the first `name=` is skipped, the second masked. */
  lemma NewlineStopsValue()
    ensures FilterDatum(["name"], "***", "name=a\nb;name=c;", ";") == "name=a\nb;name=***;"
  {
    var head, rest := "name=a\nb;", "name=c;";
    NewlineSpellings();
    NewlinePass(head, rest);
    SingleField("name", "***", head + rest, ";");
  }

  lemma NewlinePass(head: string, rest: string)
    requires head == "name=a\nb;" && rest == "name=c;"
    ensures Literal("name") && Literal(";")
    ensures Pass(head + rest, "name", "***", ";") == head + "name=***;"
  {
    NewlineHeadSkipped(head, rest);
    PassLastName();
    PassSkip(head, rest, "name", "***", ";");
  }

  /** With one field, `filter_datum` is that field's pass. */
  lemma SingleField(f: string, redaction: string, message: string, separator: string)
    requires WellFormed([f], redaction, separator)
    ensures FilterDatum([f], redaction, message, separator) == Pass(message, f, redaction, separator)
  {
    assert f in [f];
    assert [f][1..] == [];
  }

  lemma NewlineSpellings()
    ensures "name=a\nb;" + "name=c;" == "name=a\nb;name=c;"
    ensures "name=a\nb;" + "name=***;" == "name=a\nb;name=***;"
  {
  }

  lemma NewlineHeadSkipped(head: string, rest: string)
    requires head == "name=a\nb;" && rest == "name=c;"
    ensures forall i: nat, k: nat :: i < |head| ==> !Candidate(head + rest, "name", ";", i, k)
  {
    var line := head + rest;
    NewlineSpellings();
    forall i: nat, k: nat | i < |head|
      ensures !Candidate(line, "name", ";", i, k)
    {
      if i == 0 {
        NewlineBlocks(line, k);
      } else if i + 5 <= |line| {
        assert line[i..i + 5][4] == line[i + 4];
        assert line[i + 4] != '=';
      }
    }
  }

  lemma PassLastName()
    ensures Literal("name") && Literal(";")
    ensures Pass("name=c;", "name", "***", ";") == "name=***;"
  {
    JoinOne(("name", "c"));
    JoinOne(("name", "***"));
    assert Segment("name", "c") == "name=c;" && Segment("name", "***") == "name=***;";
    assert ';' !in RegexSpecial;
    assert PlainPairs([("name", "c")]);
    PassJoin([("name", "c")], "name", "***");
    assert MaskFirst([("name", "c")], "name", "***") == [("name", "***")];
  }

  lemma NewlineBlocks(line: string, k: nat)
    requires line == "name=a\nb;name=c;"
    ensures !Terminates(line[5..], ";", k)
  {
    var t := line[5..];
    assert t[0] == 'a' && t[1] == '\n';
    if k < 2 {
      assert t[k..k + 1][0] == t[k];
    }
  }

  /** A value may hold `=`: each pass, in column order, finds its own key first. */
  lemma EqualsInValue()
    ensures FilterDatum(["name", "email"], "***", "name=a=b;email=c;", ";") == "name=***;email=***;"
  {
    var todo := [("name", "a=b"), ("email", "c")];
    EqualsFacts();
    MaskInOrder([], todo, "", "***");
  }

  lemma EqualsFacts()
    ensures Keys([("name", "a=b"), ("email", "c")]) == ["name", "email"]
    ensures Join([]) + (Join([("name", "a=b"), ("email", "c")]) + "") == "name=a=b;email=c;"
    ensures Join([]) + (Join(Redacted([("name", "a=b"), ("email", "c")], "***")) + "") == "name=***;email=***;"
    ensures PlainPairs([]) && Plain("***")
    ensures forall i :: 0 <= i < |[("name", "a=b"), ("email", "c")]| ==>
              var p := [("name", "a=b"), ("email", "c")][i];
              Plain(p.0) && Literal(p.0) && Maskable(p.1) && EndsNone([], p.0)
    ensures InOrder([("name", "a=b"), ("email", "c")])
  {
    EqualsLine();
    EqualsMasked();
    EqualsOrder();
  }

  lemma EqualsLine()
    ensures Join([]) + (Join([("name", "a=b"), ("email", "c")]) + "") == "name=a=b;email=c;"
  {
    JoinTwo(("name", "a=b"), ("email", "c"));
  }

  lemma EqualsMasked()
    ensures Join([]) + (Join(Redacted([("name", "a=b"), ("email", "c")], "***")) + "") == "name=***;email=***;"
  {
    assert Redacted([("name", "a=b"), ("email", "c")], "***") == [("name", "***"), ("email", "***")];
    JoinTwo(("name", "***"), ("email", "***"));
  }

  lemma EqualsOrder()
    ensures Keys([("name", "a=b"), ("email", "c")]) == ["name", "email"]
    ensures InOrder([("name", "a=b"), ("email", "c")])
  {
    assert !IsSuffix("email", "name");
  }

  /** A trailing `user_agent` segment whose value holds a `;`. */
  const AgentSegment: string := "user_agent=Moz (X11; Linux);"

  /** Text after the last masked pair is kept, even when it holds a `;`. */
  lemma TrailingValueKept()
    ensures FilterDatum(["name"], "***", "name=Bob;" + AgentSegment, ";") == "name=***;" + AgentSegment
  {
    TrailingFacts();
    FilterJoinTail(["name"], [("name", "Bob")], AgentSegment, "***");
  }

  lemma TrailingFacts()
    ensures Join([("name", "Bob")]) == "name=Bob;" && Join([("name", "***")]) == "name=***;"
    ensures PlainPairs([("name", "Bob")])
    ensures forall f :: f in ["name"] ==> Plain(f) && Literal(f) && KeyEnds([("name", "Bob")], f)
    ensures MaskEach(["name"], [("name", "Bob")], "***") == [("name", "***")]
  {
    TrailingLines();
    TrailingKey();
    TrailingMask();
  }

  lemma TrailingLines()
    ensures Join([("name", "Bob")]) == "name=Bob;" && Join([("name", "***")]) == "name=***;"
  {
    JoinOne(("name", "Bob"));
    JoinOne(("name", "***"));
  }

  lemma TrailingKey()
    ensures PlainPairs([("name", "Bob")])
    ensures forall f :: f in ["name"] ==> Plain(f) && Literal(f) && KeyEnds([("name", "Bob")], f)
  {
    IsSuffixSelf("name");
    assert IsSuffix("name", [("name", "Bob")][0].0);
  }

  lemma TrailingMask()
    ensures MaskEach(["name"], [("name", "Bob")], "***") == [("name", "***")]
  {
    IsSuffixSelf("name");
    assert ["name"][1..] == [];
  }

  /** The formatter masks `name` and `email` in a rendered message. */
  lemma FormatterMasksPii(loggerName: string, levelName: string)
    ensures FormatRecord(PiiFormatter(), LogRecord(loggerName, levelName, "name=Bob;email=bob@x.com;"))
         == LogRecord(loggerName, levelName, "name=***;email=***;")
  {
    var row := ["Bob", "bob@x.com"];
    BobRow();
    RedactedRowLine(loggerName, levelName, row);
  }

  lemma BobRow()
    ensures forall v :: v in ["Bob", "bob@x.com"] ==> Plain(v)
    ensures RenderRow(MainFields, ["Bob", "bob@x.com"]) == "name=Bob;email=bob@x.com;"
    ensures RenderRow(MainFields, MaskPii(["Bob", "bob@x.com"])) == "name=***;email=***;"
  {
    BobRendered();
    BobMasked();
  }

  lemma BobRendered()
    ensures RenderRow(MainFields, ["Bob", "bob@x.com"]) == "name=Bob;email=bob@x.com;"
  {
    assert Zip(MainFields, ["Bob", "bob@x.com"]) == [("name", "Bob"), ("email", "bob@x.com")];
    JoinTwo(("name", "Bob"), ("email", "bob@x.com"));
  }

  lemma BobMasked()
    ensures RenderRow(MainFields, MaskPii(["Bob", "bob@x.com"])) == "name=***;email=***;"
  {
    assert MaskPii(["Bob", "bob@x.com"]) == ["***", "***"];
    assert Zip(MainFields, ["***", "***"]) == [("name", "***"), ("email", "***")];
    JoinTwo(("name", "***"), ("email", "***"));
  }

  /** Pairs are emitted in column order as `k=v;`. */
  lemma RenderTwoColumns()
    ensures RenderRow(["name", "email"], ["Alice", "a@x.com"]) == "name=Alice;email=a@x.com;"
  {
    assert Zip(["name", "email"], ["Alice", "a@x.com"]) == [("name", "Alice"), ("email", "a@x.com")];
    JoinTwo(("name", "Alice"), ("email", "a@x.com"));
    assert Segment("name", "Alice") == "name=Alice;";
    assert Segment("email", "a@x.com") == "email=a@x.com;";
  }

  /** A row shorter than the column list renders only the available pairs. */
  lemma RenderShortRow()
    ensures RenderRow(MainFields, ["Bob"]) == "name=Bob;"
  {
    assert Zip(MainFields, ["Bob"]) == [("name", "Bob")];
    assert [("name", "Bob")][1..] == [];
    assert Join([("name", "Bob")]) == Segment("name", "Bob") == "name=Bob;";
  }
}
